=== FILE: README.md ===
# Tool catalog: screen and card state, modelled in Dafny

This project models the client-side state of a small CRUD screen for a catalog
of "tools" (records with an id, a title, a description and a url) kept in a
remote document collection. Two components are modelled:

- the **index screen** (`src/components/screens/Index.tsx`), which holds the
  catalog `tools`, the entry form's draft and a form error flag, and whose
  handlers load the collection, track the form, create, update and delete;
- the **tool card** (`src/components/shared/ToolCard.tsx`), a two-field state
  machine `(isEdit, draft)` per record, whose handlers toggle edit mode,
  close (discarding the draft), edit a field, confirm (emitting an update)
  and delete (emitting a delete).

Every handler is a pure function from the old state to the new one. Each
remote call becomes a parameter that carries its outcome. A load gets either a
snapshot of documents or a failure. An add gets either the id the store
assigned or a failure. An update or a delete gets either success or failure. It also gets whether
building the document reference succeeded or threw.
The handlers that write to the collection also return the request they send.

Modules:

- `Tools` (`tools.dfy`): the `Tool` record, the field keys, the partial record
  `Fields` held by the form and by document data, and field reads and writes.
  It also defines the `UniqueIds` predicate.
- `IndexScreen` (`index_screen.dfy`): the screen state and its handlers.
- `ToolCard` (`tool_card.dfy`): the card state, its handlers, which controls
  are rendered in which mode, and runs of user gestures.
- `Session` (`session.dfy`): sequences of screen handlers, and the wiring of
  card requests to screen handlers. It proves the cross-component properties.

Behaviour of the code that the model keeps as it is:

- A failed load is not reported. The rejection of `getDocs` is unhandled, so
  `setTools` is never reached and the catalog keeps its prior value.
- A successful update does not refresh the catalog's copy of the record.
  `onUpdateTool` never touches `tools`, whatever the outcome.
- Nothing is ever rolled back. Update and create change no catalog state
  before the store answers. Delete filters the catalog at once and does not
  restore it when the remote delete fails.
- Ids are never checked for uniqueness. The catalog's ids stay unique only
  under the assumption on ids stated under "Left out"
  (`Session.ReplayKeepsIdsUnique`).
- A failed create keeps the form draft and raises `formError`. No handler ever
  lowers the flag again.
- `doc(firestore, 'tools', id)` runs synchronously at the start of the update
  and delete handlers. When it throws, nothing after it runs, so a delete does
  not filter the catalog. The model passes its result in as a parameter.

One consequence of the code as written is proved as a lemma. After a
confirmed card update, the card's inputs show the draft with the new title.
But the catalog still holds the old record, so the card stays mounted with the
old record as its `tool` prop. Reopening the editor and closing it therefore
shows the title from before the saved edit
(`Session.CloseAfterSavedEditShowsOldTitle`).

## Model

| member | source | states |
|---|---|---|
| Tools.Set | src/components/shared/ToolCard.tsx:24-26 | writing a key of a tool sets that key to the value and leaves every other key as it was |
| Tools.Put | src/components/screens/Index.tsx:55-57 | writing a key of the form draft makes that key present with the value and leaves every other key as it was |
| Tools.SetIsDeterminedByItsKeys | src/components/shared/ToolCard.tsx:25 | any tool that holds the new value under the key and agrees with the original on every other key is the result of the write, so the write's contract fixes the whole record |
| Tools.SetTwiceKeepsLast | src/components/shared/ToolCard.tsx:25 | two writes to one key keep only the second value |
| Tools.SetsOnDistinctKeysCommute | src/components/shared/ToolCard.tsx:25 | writes to different keys can be applied in either order |
| Tools.SetOwnValueIsIdentity | src/components/shared/ToolCard.tsx:25 | writing back the value a key already holds leaves the tool unchanged |
| IndexScreen.RecordOf | src/components/screens/Index.tsx:48 | a loaded record's id is the document id unless the document data carries an id, in which case the data's id wins; the text fields come from the data |
| IndexScreen.Records | src/components/screens/Index.tsx:42-49 | loading yields exactly one record per snapshot document, in snapshot order |
| IndexScreen.CollectRecords | src/components/screens/Index.tsx:42-49 | the loop that pushes one record per document builds the same list as the one-record-per-document mapping |
| IndexScreen.FetchData | src/components/screens/Index.tsx:35-52 | on a snapshot the catalog becomes its records, with length equal to the document count; on a failed query the whole screen is unchanged; the form and flag are never touched |
| IndexScreen.LoadForgetsPriorCatalog | src/components/screens/Index.tsx:50 | a load replaces the catalog, so the records held before it do not affect the result |
| IndexScreen.LoadIsIdempotent | src/components/screens/Index.tsx:41-50 | loading the same snapshot twice gives the same screen as loading it once |
| IndexScreen.RecordsOfConcatenation | src/components/screens/Index.tsx:47-49 | the records of a concatenation of documents are the records of each part, in order |
| IndexScreen.CoherentSnapshotLoadsUnique | src/components/screens/Index.tsx:42-49 | documents with distinct ids, whose data carries either no `id` key or its own document's id, load as a catalog with unique ids |
| IndexScreen.SharedDataIdLoadsDuplicates | src/components/screens/Index.tsx:48 | distinct document ids alone do not give unique records: two documents with distinct ids whose data both carry `id` "x" break the data-id half of the assumption and load as two records with id "x" |
| IndexScreen.HandleInputChange | src/components/screens/Index.tsx:55-57 | a form edit sets only the named key of the draft; the catalog and the error flag are unchanged |
| IndexScreen.OnUpdateTool | src/components/screens/Index.tsx:59-77 | an update sends the given id and data to the store unless building the document reference throws, in which case nothing is sent; either way the catalog, form and flag are unchanged |
| IndexScreen.UpdateOutcomeIsInvisible | src/components/screens/Index.tsx:60-76 | success and failure of an update leave the same screen, which is the screen before the update |
| IndexScreen.Occurrences | src/components/screens/Index.tsx:80 | the count of records carrying an id is zero exactly when no record carries it |
| IndexScreen.Without | src/components/screens/Index.tsx:80 | the filter keeps exactly the records whose id differs from the target, and removes as many records as carry the target id |
| IndexScreen.WithoutKeepsOrder | src/components/screens/Index.tsx:80 | the records kept by the filter stay in their original relative order |
| IndexScreen.WithoutAbsentIdIsIdentity | src/components/screens/Index.tsx:80 | deleting an id that no record carries leaves the catalog as it was |
| IndexScreen.UniqueIdOccursAtMostOnce | src/components/screens/Index.tsx:80 | in a catalog with unique ids, at most one record carries a given id |
| IndexScreen.WithoutKeepsUnique | src/components/screens/Index.tsx:80 | the filter keeps ids unique |
| IndexScreen.OnDeleteTool | src/components/screens/Index.tsx:78-97 | once the document reference is built, a delete sends the id and at once leaves no record with that id and keeps every other record in its original order, whatever the outcome; when building the reference throws, the screen is unchanged and nothing is sent; the form and flag are always kept |
| IndexScreen.DeleteIsNeverRolledBack | src/components/screens/Index.tsx:80-96 | a failed delete leaves the same screen as a successful one |
| IndexScreen.DeleteOfPresentUniqueId | src/components/screens/Index.tsx:80 | with unique ids, deleting a present id shortens the catalog by one and keeps the others in order |
| IndexScreen.HandleFormSubmit | src/components/screens/Index.tsx:99-132 | a submit sends the form's three text fields; on success the catalog gains one record at the end, built from the returned id and those fields, the old records stay in front, and the form is cleared; on failure the catalog and the draft are unchanged and the error flag is raised |
| IndexScreen.SubmitIgnoresFormId | src/components/screens/Index.tsx:103-107 | an id key typed into the form reaches neither the request nor the new record |
| IndexScreen.CreateWithFreshIdKeepsUnique | src/components/screens/Index.tsx:121 | appending a record whose returned id is new keeps the catalog ids unique |
| ToolCard.Mount | src/components/shared/ToolCard.tsx:13-15 | a card starts out of edit mode with the draft equal to its tool |
| ToolCard.ToggleIsEdit | src/components/shared/ToolCard.tsx:17 | toggling flips edit mode and leaves the draft and the tool untouched |
| ToolCard.ToggleTwiceIsIdentity | src/components/shared/ToolCard.tsx:17 | toggling twice returns to the same card |
| ToolCard.OnClose | src/components/shared/ToolCard.tsx:19-22 | closing leaves edit mode and resets the draft to the tool |
| ToolCard.CloseRestoresMount | src/components/shared/ToolCard.tsx:13-22 | closing returns the card to its first-render state |
| ToolCard.CloseDiscardsEdits | src/components/shared/ToolCard.tsx:19-26 | an edit followed by a close leaves the same card as the close alone |
| ToolCard.HandleInputChange | src/components/shared/ToolCard.tsx:24-26 | a field edit changes only the named key of the draft, and neither edit mode nor the tool |
| ToolCard.HandleUpdate | src/components/shared/ToolCard.tsx:28-31 | confirming leaves edit mode, keeps the draft, and emits an update naming the tool's id with the whole draft |
| ToolCard.UpdateTargetIgnoresDraftId | src/components/shared/ToolCard.tsx:30 | the update targets the tool's id even when the draft's id was edited, while the data sent carries the edited id |
| ToolCard.HandleDelete | src/components/shared/ToolCard.tsx:33-35 | deleting emits the tool's id and changes no card state |
| ToolCard.Click | src/components/shared/ToolCard.tsx:45-87 | a gesture on a control that is not rendered in the current mode does nothing; a rendered control runs its handler: the pencil enters edit mode keeping the draft, the X returns the card to its first-render state, an input sets only its field, the check leaves edit mode and emits an update of the whole draft under the tool's id, and delete emits the tool's id leaving the card as it was |
| ToolCard.Run | src/components/shared/ToolCard.tsx:45-87 | a run of gestures keeps the tool, emits at most one request per gesture, and every request names the tool's id |
| ToolCard.RunConcatenation | src/components/shared/ToolCard.tsx:45-87 | two runs of gestures back to back act as their concatenation, and the requests come out in gesture order |
| ToolCard.RunKeepsDraftIdCoherent | src/components/shared/ToolCard.tsx:45-69 | through the rendered inputs the draft's id never drifts from the tool's, so every emitted update writes the tool's own id |
| ToolCard.MountIsCoherent | src/components/shared/ToolCard.tsx:15 | a freshly rendered card's draft carries the tool's id |
| Session.ApplyKeepsIdsUnique | src/components/screens/Index.tsx:41-131 | each screen handler keeps catalog ids unique when the store's ids are fresh |
| Session.ReplayKeepsIdsUnique | src/components/screens/Index.tsx:24-132 | any sequence of screen handlers keeps catalog ids unique when every snapshot has distinct document ids with any data `id` key equal to its document's id, and every id returned by an add is new |
| Session.FormErrorMeansSomeAddFailed | src/components/screens/Index.tsx:128-131 | after a sequence of handlers the error flag is up exactly when it was up before or some add in the sequence failed |
| Session.Deliver | src/components/screens/Index.tsx:170 | a card's update request leaves the screen unchanged; a card's delete request keeps exactly the records with another id, every copy of each, in their original order, or changes nothing when building the document reference throws; the form and flag are always kept |
| Session.CardDeleteRemovesItsRecord | src/components/shared/ToolCard.tsx:33-35 | a card rendered for a catalog record removes that record from the catalog whatever the store answers |
| Session.CloseAfterSavedEditShowsOldTitle | src/components/screens/Index.tsx:59-61 | after a confirmed title edit the catalog record is unchanged, so reopening and closing the card shows the old title |
| Session.CreateFromBlankForm | src/components/screens/Index.tsx:99-127 | typing a tool into the blank form and submitting with store id "abc123" gives exactly that one record and a cleared form |
| Session.DeleteOnlyRecord | src/components/screens/Index.tsx:78-80 | deleting the only record empties the catalog whatever the store answers |
| Session.FailedFirstLoad | src/components/screens/Index.tsx:25-50 | a failed first load leaves the initial empty screen |

## Left out

- The remote document store's asynchronous calls (`getDocs`, `addDoc`, `updateDoc`, `deleteDoc`): these are foreign. Each is modelled only by its outcome parameter and the request the handler sends.
- `doc`: it is synchronous and foreign. Its result, a reference or a throw, is a parameter of the update and delete handlers. Which ids make it throw is decided inside the store's client library and is not modelled.
- `useFirestore`, and `collection` and `query` on the fixed path `tools`: they are synchronous and are taken to succeed. None of them has an outcome parameter.
- Toast notifications and `console.log`: they are side-effect sinks with no effect on state.
- JSX layout, CSS classes, `clsx`, `Head`, `ToastContainer`, the icons and `e.preventDefault()`: these are presentation only. The model keeps just which controls each card mode renders.
- React scheduling, stale closures over `tools`, overlapping in-flight operations, and key-based reconciliation of cards: this is concurrency and framework behaviour. Handlers are applied one at a time to the current state.
- A card's `tool` prop changing after mount: `useState(tool)` reads the prop only on first render, and the model keeps the tool a card was mounted with.
- Documents whose data lacks `title`, `description` or `url`, or carries extra keys: the `as Tool` cast does not check them. The model's document data always has the three text fields, as every document this client writes does.
- Id uniqueness, update rollback, and merging updates into the cached list: the code does none of these. Uniqueness is proved only under an assumption: every snapshot has distinct document ids, any `id` key in a document's data equals its own document's id, and every id an add returns is new. The distinct document ids come from the store. The data `id` keys come from this client's updates, which write the tool's own id (`ToolCard.RunKeepsDraftIdCoherent`). Another writer could break the assumption (`IndexScreen.SharedDataIdLoadsDuplicates`).
- What the store does with an update's data (merging the fields, including the draft's `id` key, into the document) is not modelled: it happens inside the store.

=== FILE: index_screen.dfy ===
/** The index screen: the catalog `tools`, the entry form's draft and the
    form's error flag, and how each handler moves them. Every remote call is
    replaced by its outcome, passed in as a parameter; the handlers that
    write to the remote collection also report the request they send. */
module IndexScreen {
  import opened Tools

  /** One document of the query snapshot: its id and its data. */
  datatype Doc = Doc(id: string, data: Fields)

  /** How the snapshot query of the whole collection ended. */
  datatype Fetch = Fetched(docs: seq<Doc>) | FetchFailed

  /** How adding a document ended: the id the store assigned, or a throw. */
  datatype Added = Added(id: string) | AddFailed

  /** How an update or a delete of one document ended. */
  datatype Outcome = Succeeded | Failed

  /** How `doc(firestore, 'tools', id)` met the id. It runs synchronously,
      before anything else in the update and delete handlers. It only checks
      the path locally, never whether the document exists, and throws for an
      id that is not a single valid path segment. */
  datatype DocRef = RefOk | RefThrew

  /** The screen's state: the catalog, the form draft, the form error flag. */
  datatype Screen = Screen(tools: seq<Tool>, form: Fields, formError: bool)

  /** A write sent to the remote `tools` collection. */
  datatype Request =
    | AddDoc(title: string, description: string, url: string)
    | UpdateDoc(id: string, data: Tool)
    | DeleteDoc(id: string)

  /** The state after a handler, and the write it sent, if it got that far. */
  datatype Step = Step(next: Screen, sent: Option<Request>)

  /** The state on first render: no records, a blank form, no error. */
  const Initial: Screen := Screen([], Blank, false)

  // ---------------------------------------------------------------------
  // Load

  /** `{ id: doc.id, ...doc.data() }`: the data is spread after the
      document id, so an `id` key inside the data wins. */
  function RecordOf(d: Doc): (t: Tool)
    ensures d.data.id.None? ==> t.id == d.id
    ensures d.data.id.Some? ==> t.id == d.data.id.value
    ensures t.title == d.data.title && t.description == d.data.description && t.url == d.data.url
  {
    var id := match d.data.id
      case Some(own) => own
      case None => d.id;
    Tool(id, d.data.title, d.data.description, d.data.url)
  }

  /** The records built from a snapshot, one per document, in snapshot order. */
  function Records(docs: seq<Doc>): (r: seq<Tool>)
    ensures |r| == |docs|
    ensures forall i :: 0 <= i < |docs| ==> r[i] == RecordOf(docs[i])
  {
    if |docs| == 0 then [] else [RecordOf(docs[0])] + Records(docs[1..])
  }

  /** The `forEach` over the snapshot that pushes one record per document. */
  method CollectRecords(docs: seq<Doc>) returns (fetched: seq<Tool>)
    ensures fetched == Records(docs)
  {
    fetched := [];
    for i := 0 to |docs|
      invariant fetched == Records(docs[..i])
    {
      fetched := fetched + [RecordOf(docs[i])];
    }
    assert docs[..|docs|] == docs;
  }

  /** The mount effect: on a snapshot the catalog becomes its records; when
      the query throws, `setTools` is never reached. */
  function FetchData(s: Screen, fetch: Fetch): (r: Screen)
    ensures fetch.FetchFailed? ==> r == s
    ensures fetch.Fetched? ==> |r.tools| == |fetch.docs|
    ensures fetch.Fetched? ==> forall i :: 0 <= i < |r.tools| ==> r.tools[i] == RecordOf(fetch.docs[i])
    ensures r.form == s.form && r.formError == s.formError
  {
    match fetch
    case Fetched(docs) => s.(tools := Records(docs))
    case FetchFailed => s
  }

  /** A load replaces the catalog: what was there before does not matter. */
  lemma LoadForgetsPriorCatalog(s: Screen, s': Screen, docs: seq<Doc>)
    ensures FetchData(s, Fetched(docs)).tools == FetchData(s', Fetched(docs)).tools
  {
  }

  /** Loading the same snapshot twice gives the same screen as loading it once. */
  lemma LoadIsIdempotent(s: Screen, fetch: Fetch)
    ensures FetchData(FetchData(s, fetch), fetch) == FetchData(s, fetch)
  {
  }

  /** The records of a concatenated document list are the records of each
      part, in order. */
  lemma RecordsOfConcatenation(a: seq<Doc>, b: seq<Doc>)
    ensures Records(a + b) == Records(a) + Records(b)
  {
  }

  /** No two documents of a snapshot share a document id: the store
      guarantees this within one collection. */
  ghost predicate DocIdsDistinct(docs: seq<Doc>)
  {
    forall i, j :: 0 <= i < j < |docs| ==> docs[i].id != docs[j].id
  }

  /** Document data that carries an `id` key carries its own document's id.
      The store does not promise this; it holds for the documents this client
      writes, because every update it sends carries the tool's own id as the
      draft's id. */
  ghost predicate DataIdsMatchDocs(docs: seq<Doc>)
  {
    forall i :: 0 <= i < |docs| ==> docs[i].data.id.None? || docs[i].data.id.value == docs[i].id
  }

  /** What a snapshot must satisfy to load without duplicate record ids. */
  ghost predicate SnapshotIdsCoherent(docs: seq<Doc>)
  {
    DocIdsDistinct(docs) && DataIdsMatchDocs(docs)
  }

  /** Distinct document ids, and data ids that agree with them, load as a
      catalog with unique ids. */
  lemma CoherentSnapshotLoadsUnique(docs: seq<Doc>)
    requires SnapshotIdsCoherent(docs)
    ensures UniqueIds(Records(docs))
  {
  }

  /** Distinct document ids alone are not enough: two documents whose data
      both carry the same `id` key load as two records with that id. */
  lemma SharedDataIdLoadsDuplicates()
    ensures
      var docs := [Doc("a", Fields(Some("x"), "", "", "")), Doc("b", Fields(Some("x"), "", "", ""))];
      && DocIdsDistinct(docs)
      && !DataIdsMatchDocs(docs)
      && !UniqueIds(Records(docs))
  {
    var docs := [Doc("a", Fields(Some("x"), "", "", "")), Doc("b", Fields(Some("x"), "", "", ""))];
    assert docs[0].data.id.value != docs[0].id;
  }

  // ---------------------------------------------------------------------
  // Form input

  /** `setInputData({ ...inputData, [field]: value })` on the entry form. */
  function HandleInputChange(s: Screen, f: Field, v: string): (r: Screen)
    ensures Lookup(r.form, f) == Some(v)
    ensures forall g :: g != f ==> Lookup(r.form, g) == Lookup(s.form, g)
    ensures r.tools == s.tools && r.formError == s.formError
  {
    s.(form := Put(s.form, f, v))
  }

  // ---------------------------------------------------------------------
  // Update

  /** Forwards the card's data to the store, unless `doc` throws first. The
      catalog is never touched: not before the call, not on success, not on
      failure. */
  function OnUpdateTool(s: Screen, id: string, data: Tool, ref: DocRef, outcome: Outcome): (r: Step)
    ensures ref.RefOk? ==> r.sent == Some(UpdateDoc(id, data))
    ensures ref.RefThrew? ==> r.sent.None?
    ensures r.next.tools == s.tools
    ensures r.next.form == s.form && r.next.formError == s.formError
  {
    match ref
    case RefOk => Step(s, Some(UpdateDoc(id, data)))
    case RefThrew => Step(s, None)
  }

  /** Success and failure of an update leave the same screen behind. */
  lemma UpdateOutcomeIsInvisible(s: Screen, id: string, data: Tool, ref: DocRef)
    ensures OnUpdateTool(s, id, data, ref, Succeeded) == OnUpdateTool(s, id, data, ref, Failed)
    ensures OnUpdateTool(s, id, data, ref, Failed).next == s
  {
  }

  // ---------------------------------------------------------------------
  // Delete

  /** How many records of the list carry the id. */
  function Occurrences(tools: seq<Tool>, id: string): (n: nat)
    ensures n <= |tools|
    ensures n == 0 <==> !HasId(tools, id)
  {
    if |tools| == 0 then 0
    else
      assert tools[0] in tools;
      (if tools[0].id == id then 1 else 0) + Occurrences(tools[1..], id)
  }

  /** `tools.filter((doc) => doc.id !== id)`. */
  function Without(tools: seq<Tool>, id: string): (r: seq<Tool>)
    ensures forall t :: t in r <==> t in tools && t.id != id
    ensures |r| == |tools| - Occurrences(tools, id)
  {
    if |tools| == 0 then []
    else
      assert tools == [tools[0]] + tools[1..];
      if tools[0].id != id then [tools[0]] + Without(tools[1..], id)
      else Without(tools[1..], id)
  }

  /** `a` is obtained from `b` by dropping elements: the survivors keep
      their relative order. */
  ghost predicate IsSubsequence(a: seq<Tool>, b: seq<Tool>)
    decreases |b|
  {
    || |a| == 0
    || (&& |b| > 0
        && ((a[0] == b[0] && IsSubsequence(a[1..], b[1..])) || IsSubsequence(a, b[1..])))
  }

  /** The filter keeps the surviving records in their original order. */
  lemma {:induction false} WithoutKeepsOrder(tools: seq<Tool>, id: string)
    ensures IsSubsequence(Without(tools, id), tools)
  {
    if |tools| > 0 {
      var r := Without(tools, id);
      WithoutKeepsOrder(tools[1..], id);
      if tools[0].id != id {
        assert r[0] == tools[0] && r[1..] == Without(tools[1..], id);
      }
    }
  }

  /** Deleting an id nobody carries leaves the list as it was. */
  lemma {:induction false} WithoutAbsentIdIsIdentity(tools: seq<Tool>, id: string)
    requires !HasId(tools, id)
    ensures Without(tools, id) == tools
  {
    if |tools| > 0 {
      assert tools[0] in tools;
      assert !HasId(tools[1..], id) by {
        forall t | t in tools[1..] ensures t.id != id {
          assert t in tools;
        }
      }
      WithoutAbsentIdIsIdentity(tools[1..], id);
      assert tools == [tools[0]] + tools[1..];
    }
  }

  /** With unique ids at most one record carries a given id. */
  lemma {:induction false} UniqueIdOccursAtMostOnce(tools: seq<Tool>, id: string)
    requires UniqueIds(tools)
    ensures Occurrences(tools, id) <= 1
  {
    if |tools| > 0 {
      UniqueTail(tools);
      UniqueIdOccursAtMostOnce(tools[1..], id);
    }
  }

  /** Filtering keeps ids unique. */
  lemma {:induction false} WithoutKeepsUnique(tools: seq<Tool>, id: string)
    requires UniqueIds(tools)
    ensures UniqueIds(Without(tools, id))
  {
    if |tools| > 0 {
      UniqueTail(tools);
      WithoutKeepsUnique(tools[1..], id);
      if tools[0].id != id {
        var rest := Without(tools[1..], id);
        assert !HasId(rest, tools[0].id) by {
          forall t | t in rest ensures t.id != tools[0].id {
            assert t in tools[1..];
          }
        }
        PrependFreshKeepsUnique(tools[0], rest);
      }
    }
  }

  /** Once `doc` has accepted the id, removes the records with the id at
      once, then sends the delete. The outcome of the delete is ignored: a
      failed delete is not rolled back. When `doc` throws, the handler stops
      before the filter and the screen is unchanged. */
  function OnDeleteTool(s: Screen, id: string, ref: DocRef, outcome: Outcome): (r: Step)
    ensures ref.RefThrew? ==> r.next == s && r.sent.None?
    ensures ref.RefOk? ==> r.sent == Some(DeleteDoc(id))
    ensures ref.RefOk? ==> !HasId(r.next.tools, id)
    ensures ref.RefOk? ==> forall t :: t in r.next.tools <==> t in s.tools && t.id != id
    ensures ref.RefOk? ==> |r.next.tools| == |s.tools| - Occurrences(s.tools, id)
    ensures ref.RefOk? ==> IsSubsequence(r.next.tools, s.tools)
    ensures r.next.form == s.form && r.next.formError == s.formError
  {
    WithoutKeepsOrder(s.tools, id);
    match ref
    case RefOk => Step(s.(tools := Without(s.tools, id)), Some(DeleteDoc(id)))
    case RefThrew => Step(s, None)
  }

  /** A failed delete leaves the same screen as a successful one. */
  lemma DeleteIsNeverRolledBack(s: Screen, id: string, ref: DocRef)
    ensures OnDeleteTool(s, id, ref, Failed) == OnDeleteTool(s, id, ref, Succeeded)
  {
  }

  /** With unique ids, deleting a present id removes exactly one record and
      keeps the others in order. */
  lemma DeleteOfPresentUniqueId(s: Screen, id: string, outcome: Outcome)
    requires UniqueIds(s.tools)
    requires HasId(s.tools, id)
    ensures |OnDeleteTool(s, id, RefOk, outcome).next.tools| == |s.tools| - 1
    ensures IsSubsequence(OnDeleteTool(s, id, RefOk, outcome).next.tools, s.tools)
  {
    UniqueIdOccursAtMostOnce(s.tools, id);
    WithoutKeepsOrder(s.tools, id);
  }

  // ---------------------------------------------------------------------
  // Create

  /** Sends the form's three text fields (never its `id` key). Only once the
      store answers with an id is the new record appended and the form
      cleared; when the add throws, the error flag is raised and nothing
      else changes. The flag is never lowered here. */
  function HandleFormSubmit(s: Screen, added: Added): (r: Step)
    ensures r.sent == Some(AddDoc(s.form.title, s.form.description, s.form.url))
    ensures added.Added? ==>
      && |r.next.tools| == |s.tools| + 1
      && r.next.tools[..|s.tools|] == s.tools
      && r.next.tools[|s.tools|] == Tool(added.id, s.form.title, s.form.description, s.form.url)
      && r.next.form == Blank
      && r.next.formError == s.formError
    ensures added.AddFailed? ==>
      r.next.tools == s.tools && r.next.form == s.form && r.next.formError
  {
    var sent := Some(AddDoc(s.form.title, s.form.description, s.form.url));
    match added
    case Added(id) =>
      var created := Tool(id, s.form.title, s.form.description, s.form.url);
      Step(Screen(s.tools + [created], Blank, s.formError), sent)
    case AddFailed =>
      Step(s.(formError := true), sent)
  }

  /** An `id` typed into the form never reaches the store or the new record. */
  lemma SubmitIgnoresFormId(s: Screen, v: string, added: Added)
    ensures HandleFormSubmit(HandleInputChange(s, Id, v), added).sent == HandleFormSubmit(s, added).sent
    ensures HandleFormSubmit(HandleInputChange(s, Id, v), added).next.tools == HandleFormSubmit(s, added).next.tools
  {
  }

  /** A record whose id the store returns fresh keeps the ids unique. */
  lemma CreateWithFreshIdKeepsUnique(s: Screen, id: string)
    requires UniqueIds(s.tools)
    requires !HasId(s.tools, id)
    ensures UniqueIds(HandleFormSubmit(s, Added(id)).next.tools)
  {
    AppendFreshKeepsUnique(s.tools, Tool(id, s.form.title, s.form.description, s.form.url));
  }
}

=== FILE: session.dfy ===
/** The screen and its cards together: a session is a sequence of handler
    invocations applied one at a time, and a card's requests reach the
    screen through the callbacks the screen passes it. */
module Session {
  import opened Tools
  import opened IndexScreen
  import ToolCard

  /** One handler invocation on the screen, with the remote outcome it met. */
  datatype Event =
    | Load(fetch: Fetch)
    | Input(field: Field, value: string)
    | Submit(added: Added)
    | Update(id: string, data: Tool, ref: DocRef, outcome: Outcome)
    | Delete(id: string, ref: DocRef, outcome: Outcome)

  function Apply(s: Screen, e: Event): Screen
  {
    match e
    case Load(fetch) => FetchData(s, fetch)
    case Input(f, v) => IndexScreen.HandleInputChange(s, f, v)
    case Submit(added) => HandleFormSubmit(s, added).next
    case Update(id, data, ref, outcome) => OnUpdateTool(s, id, data, ref, outcome).next
    case Delete(id, ref, outcome) => OnDeleteTool(s, id, ref, outcome).next
  }

  function Replay(s: Screen, events: seq<Event>): Screen
    decreases |events|
  {
    if |events| == 0 then s else Replay(Apply(s, events[0]), events[1..])
  }

  /** What the remote side is trusted with: a snapshot has distinct document
      ids (the store's promise) and any `id` key in a document's data is that
      document's own id (what this client's own updates write), and an id
      returned by an add is not already in the catalog. */
  ghost predicate RemoteIdsFresh(s: Screen, e: Event)
  {
    match e
    case Load(Fetched(docs)) => SnapshotIdsCoherent(docs)
    case Submit(Added(id)) => !HasId(s.tools, id)
    case _ => true
  }

  ghost predicate FreshAlong(s: Screen, events: seq<Event>)
    decreases |events|
  {
    |events| == 0 || (RemoteIdsFresh(s, events[0]) && FreshAlong(Apply(s, events[0]), events[1..]))
  }

  /** One handler keeps the catalog's ids unique when the store's ids are fresh. */
  lemma ApplyKeepsIdsUnique(s: Screen, e: Event)
    requires UniqueIds(s.tools)
    requires RemoteIdsFresh(s, e)
    ensures UniqueIds(Apply(s, e).tools)
  {
    match e
    case Load(fetch) =>
      if fetch.Fetched? {
        CoherentSnapshotLoadsUnique(fetch.docs);
      }
    case Input(_, _) =>
    case Submit(added) =>
      if added.Added? {
        CreateWithFreshIdKeepsUnique(s, added.id);
      }
    case Update(_, _, _, _) =>
    case Delete(id, _, _) =>
      WithoutKeepsUnique(s.tools, id);
  }

  /** No sequence of handlers puts two records with one id into the catalog,
      as long as the store's ids are fresh. The code itself checks nothing. */
  lemma {:induction false} ReplayKeepsIdsUnique(s: Screen, events: seq<Event>)
    requires UniqueIds(s.tools)
    requires FreshAlong(s, events)
    ensures UniqueIds(Replay(s, events).tools)
    decreases |events|
  {
    if |events| > 0 {
      ApplyKeepsIdsUnique(s, events[0]);
      ReplayKeepsIdsUnique(Apply(s, events[0]), events[1..]);
    }
  }

  /** Starting from a lowered flag, the form error flag is up after a
      session exactly when some add in it threw: no handler lowers it. */
  lemma {:induction false} FormErrorMeansSomeAddFailed(s: Screen, events: seq<Event>)
    ensures Replay(s, events).formError <==>
      s.formError || exists i :: 0 <= i < |events| && events[i] == Submit(AddFailed)
    decreases |events|
  {
    if |events| > 0 {
      var s' := Apply(s, events[0]);
      FormErrorMeansSomeAddFailed(s', events[1..]);
      assert s'.formError <==> s.formError || events[0] == Submit(AddFailed);
      if exists i :: 0 <= i < |events| && events[i] == Submit(AddFailed) {
        var i :| 0 <= i < |events| && events[i] == Submit(AddFailed);
        if i > 0 {
          assert events[1..][i - 1] == Submit(AddFailed);
        }
      }
      if exists i :: 0 <= i < |events[1..]| && events[1..][i] == Submit(AddFailed) {
        var i :| 0 <= i < |events[1..]| && events[1..][i] == Submit(AddFailed);
        assert events[i + 1] == Submit(AddFailed);
      }
    }
  }

  // ---------------------------------------------------------------------
  // Cards wired to the screen

  /** `onUpdate={onUpdateTool} onDelete={onDeleteTool}`: a card's request
      becomes the screen handler of the same name. */
  function Deliver(s: Screen, e: ToolCard.Emit, ref: DocRef, outcome: Outcome): (r: Screen)
    ensures e.UpdateTool? ==> r == s
    ensures e.DeleteTool? && ref.RefOk? ==> forall t :: t in r.tools <==> t in s.tools && t.id != e.id
    ensures e.DeleteTool? && ref.RefOk? ==> IsSubsequence(r.tools, s.tools)
    ensures e.DeleteTool? && ref.RefOk? ==> |r.tools| == |s.tools| - Occurrences(s.tools, e.id)
    ensures e.DeleteTool? && ref.RefThrew? ==> r == s
    ensures r.form == s.form && r.formError == s.formError
  {
    match e
    case UpdateTool(id, data) => OnUpdateTool(s, id, data, ref, outcome).next
    case DeleteTool(id) => OnDeleteTool(s, id, ref, outcome).next
  }

  /** A card rendered for a catalog record deletes that record from the
      catalog at once, whatever the store answers. */
  lemma CardDeleteRemovesItsRecord(s: Screen, t: Tool, outcome: Outcome)
    requires t in s.tools
    ensures t !in Deliver(s, ToolCard.HandleDelete(ToolCard.Mount(t)).emitted.value, RefOk, outcome).tools
  {
  }

  /** Editing a title and confirming leaves the catalog record as it was,
      even when the store accepted the update. Right after the confirm the
      card's inputs show the draft, with the new title, but the card stays
      mounted with the old record as its `tool` prop, so reopening the editor
      and closing it shows the title from before the saved edit. */
  lemma CloseAfterSavedEditShowsOldTitle(s: Screen, t: Tool, title: string, ref: DocRef, outcome: Outcome)
    requires t in s.tools
    ensures
      var edited := ToolCard.HandleInputChange(ToolCard.ToggleIsEdit(ToolCard.Mount(t)), Title, title);
      var confirmed := ToolCard.HandleUpdate(edited);
      var s' := Deliver(s, confirmed.emitted.value, ref, outcome);
      && confirmed.card.draft.title == title
      && s'.tools == s.tools
      && ToolCard.OnClose(ToolCard.ToggleIsEdit(confirmed.card)).draft.title == t.title
  {
  }

  // ---------------------------------------------------------------------
  // Concrete sessions

  /** Typing a tool into the blank form and submitting it, with the store
      answering "abc123", gives a one-record catalog and a cleared form. */
  lemma CreateFromBlankForm()
    ensures
      var typed := Replay(Initial, [Input(Title, "Jest"), Input(Description, "Testing"), Input(Url, "https://jestjs.io")]);
      var after := Replay(typed, [Submit(Added("abc123"))]);
      && after.tools == [Tool("abc123", "Jest", "Testing", "https://jestjs.io")]
      && after.form == Blank
      && !after.formError
  {
  }

  /** Deleting the only record empties the catalog whether or not the store
      confirms the delete. */
  lemma DeleteOnlyRecord(t: Tool, outcome: Outcome)
    ensures Replay(Screen([t], Blank, false), [Delete(t.id, RefOk, outcome)]).tools == []
  {
  }

  /** A failed first load leaves the catalog empty and raises no flag. */
  lemma FailedFirstLoad()
    ensures Replay(Initial, [Load(FetchFailed)]) == Initial
  {
  }
}

=== FILE: tool_card.dfy ===
/** One tool card: the tool it was rendered for, whether it is in edit mode,
    and its local draft. Handlers that reach the screen report what they
    ask it to do. */
module ToolCard {
  import opened Tools

  /** The card's state. `tool` is the prop; `isEdit` and `draft` are local. */
  datatype Card = Card(tool: Tool, isEdit: bool, draft: Tool)

  /** A request the card hands to the screen through its callbacks. */
  datatype Emit = UpdateTool(id: string, data: Tool) | DeleteTool(id: string)

  /** The card after a handler, and what it handed to the screen, if anything. */
  datatype Reaction = Reaction(card: Card, emitted: Option<Emit>)

  /** The card as first rendered: not editing, the draft a copy of the tool. */
  function Mount(tool: Tool): (c: Card)
    ensures !c.isEdit
    ensures c.tool == tool && c.draft == tool
  {
    Card(tool, false, tool)
  }

  /** `setIsEdit((prevState) => !prevState)`. */
  function ToggleIsEdit(c: Card): (r: Card)
    ensures r.isEdit != c.isEdit
    ensures r.tool == c.tool && r.draft == c.draft
  {
    c.(isEdit := !c.isEdit)
  }

  /** Leaves edit mode and throws the draft away in favour of the tool. */
  function OnClose(c: Card): (r: Card)
    ensures !r.isEdit
    ensures r.tool == c.tool && r.draft == c.tool
  {
    c.(isEdit := false, draft := c.tool)
  }

  /** `setInputData({ ...inputData, [field]: value })` on the draft. */
  function HandleInputChange(c: Card, f: Field, v: string): (r: Card)
    ensures Get(r.draft, f) == v
    ensures forall g :: g != f ==> Get(r.draft, g) == Get(c.draft, g)
    ensures r.tool == c.tool && r.isEdit == c.isEdit
  {
    c.(draft := Set(c.draft, f, v))
  }

  /** Leaves edit mode, keeps the draft, and asks the screen to write the
      whole draft to the document named by the tool's own id. */
  function HandleUpdate(c: Card): (r: Reaction)
    ensures !r.card.isEdit
    ensures r.card.tool == c.tool && r.card.draft == c.draft
    ensures r.emitted == Some(UpdateTool(c.tool.id, c.draft))
  {
    Reaction(c.(isEdit := false), Some(UpdateTool(c.tool.id, c.draft)))
  }

  /** Asks the screen to delete the tool's id; the card itself is unchanged. */
  function HandleDelete(c: Card): (r: Reaction)
    ensures r.card == c
    ensures r.emitted == Some(DeleteTool(c.tool.id))
  {
    Reaction(c, Some(DeleteTool(c.tool.id)))
  }

  /** Toggling twice returns to the same card. */
  lemma ToggleTwiceIsIdentity(c: Card)
    ensures ToggleIsEdit(ToggleIsEdit(c)) == c
  {
  }

  /** Closing returns the card to its first-render state. */
  lemma CloseRestoresMount(c: Card)
    ensures OnClose(c) == Mount(c.tool)
  {
  }

  /** Whatever was typed before a close is lost. */
  lemma CloseDiscardsEdits(c: Card, f: Field, v: string)
    ensures OnClose(HandleInputChange(c, f, v)) == OnClose(c)
  {
  }

  /** The update targets the tool's id even when the draft's id was changed. */
  lemma UpdateTargetIgnoresDraftId(c: Card, v: string)
    ensures HandleUpdate(HandleInputChange(c, Id, v)).emitted.value.id == c.tool.id
    ensures HandleUpdate(HandleInputChange(c, Id, v)).emitted.value.data.id == v
  {
  }

  // ---------------------------------------------------------------------
  // What the rendered card lets a user do

  /** A user gesture on the card. `Edit` is typing into one input box. */
  datatype Action = Toggle | Close | Edit(field: Field, value: string) | Confirm | Remove

  /** Which controls the card renders: close and confirm only in edit mode,
      the pencil and the delete button only outside it; the three inputs are
      always live (they are never read-only) and there is no input for `id`. */
  predicate Offered(c: Card, a: Action)
  {
    match a
    case Close => c.isEdit
    case Confirm => c.isEdit
    case Toggle => !c.isEdit
    case Remove => !c.isEdit
    case Edit(f, _) => f != Id
  }

  /** The effect of a gesture; one on a control that is not rendered does nothing. */
  function Click(c: Card, a: Action): (r: Reaction)
    ensures !Offered(c, a) ==> r == Reaction(c, None)
    ensures r.card.tool == c.tool
    ensures r.emitted.Some? ==> r.emitted.value.id == c.tool.id
    ensures a.Edit? && Offered(c, a) ==> r.card.draft.id == c.draft.id
    ensures Offered(c, a) && a.Toggle? ==> r.card.isEdit && r.card.draft == c.draft && r.emitted.None?
    ensures Offered(c, a) && a.Close? ==> r.card == Mount(c.tool) && r.emitted.None?
    ensures Offered(c, a) && a.Edit? ==>
      && Get(r.card.draft, a.field) == a.value
      && (forall g :: g != a.field ==> Get(r.card.draft, g) == Get(c.draft, g))
      && r.card.isEdit == c.isEdit
      && r.emitted.None?
    ensures Offered(c, a) && a.Confirm? ==>
      && !r.card.isEdit
      && r.card.draft == c.draft
      && r.emitted == Some(UpdateTool(c.tool.id, c.draft))
    ensures Offered(c, a) && a.Remove? ==> r == Reaction(c, Some(DeleteTool(c.tool.id)))
  {
    if !Offered(c, a) then Reaction(c, None)
    else
      match a
      case Toggle => Reaction(ToggleIsEdit(c), None)
      case Close => Reaction(OnClose(c), None)
      case Edit(f, v) => Reaction(HandleInputChange(c, f, v), None)
      case Confirm => HandleUpdate(c)
      case Remove => HandleDelete(c)
  }

  /** The card after a run of gestures, and everything it handed to the screen. */
  datatype Trace = Trace(card: Card, emits: seq<Emit>)

  function Run(c: Card, actions: seq<Action>): (r: Trace)
    ensures r.card.tool == c.tool
    ensures |r.emits| <= |actions|
    ensures forall e :: e in r.emits ==> e.id == c.tool.id
    decreases |actions|
  {
    if |actions| == 0 then Trace(c, [])
    else
      var step := Click(c, actions[0]);
      var rest := Run(step.card, actions[1..]);
      var now := if step.emitted.Some? then [step.emitted.value] else [];
      Trace(rest.card, now + rest.emits)
  }

  /** Running two runs of gestures back to back is running their
      concatenation: the second starts from the card the first left, and the
      requests come out in gesture order. */
  lemma {:induction false} RunConcatenation(c: Card, xs: seq<Action>, ys: seq<Action>)
    ensures Run(c, xs + ys).card == Run(Run(c, xs).card, ys).card
    ensures Run(c, xs + ys).emits == Run(c, xs).emits + Run(Run(c, xs).card, ys).emits
    decreases |xs|
  {
    if |xs| == 0 {
      assert xs + ys == ys;
    } else {
      assert (xs + ys)[0] == xs[0];
      assert (xs + ys)[1..] == xs[1..] + ys;
      RunConcatenation(Click(c, xs[0]).card, xs[1..], ys);
    }
  }

  /** The draft carries the tool's id. */
  ghost predicate Coherent(c: Card)
  {
    c.draft.id == c.tool.id
  }

  /** Through the rendered controls alone the draft's id can never drift from
      the tool's, so every update the card sends writes the tool's own id
      into the document. */
  lemma {:induction false} RunKeepsDraftIdCoherent(c: Card, actions: seq<Action>)
    requires Coherent(c)
    ensures Coherent(Run(c, actions).card)
    ensures forall e :: e in Run(c, actions).emits && e.UpdateTool? ==> e.data.id == c.tool.id
    decreases |actions|
  {
    if |actions| > 0 {
      var step := Click(c, actions[0]);
      RunKeepsDraftIdCoherent(step.card, actions[1..]);
    }
  }

  /** A freshly rendered card is coherent. */
  lemma MountIsCoherent(t: Tool)
    ensures Coherent(Mount(t))
  {
  }
}

=== FILE: tools.dfy ===
/** The records of the tool catalog and the field-wise edits that both the
    index screen and a tool card apply to them. */
module Tools {

  datatype Option<+T> = None | Some(value: T)

  /** One catalog entry. `id` is the identifier of the remote document. */
  datatype Tool = Tool(id: string, title: string, description: string, url: string)

  /** The keys an input box can write, one per member of the screens' field
      enumeration. */
  datatype Field = Id | Title | Description | Url

  /** A partial tool as the screens and the documents hold it: the three text
      fields are always present, the `id` key only when something wrote it. */
  datatype Fields = Fields(id: Option<string>, title: string, description: string, url: string)

  /** The cleared entry form: three empty strings and no `id` key. */
  const Blank: Fields := Fields(None, "", "", "")

  /** The value a tool holds under a key. */
  function Get(t: Tool, f: Field): string
  {
    match f
    case Id => t.id
    case Title => t.title
    case Description => t.description
    case Url => t.url
  }

  /** `{ ...t, [f]: v }` on a whole tool. */
  function Set(t: Tool, f: Field, v: string): (r: Tool)
    ensures Get(r, f) == v
    ensures forall g :: g != f ==> Get(r, g) == Get(t, g)
  {
    match f
    case Id => t.(id := v)
    case Title => t.(title := v)
    case Description => t.(description := v)
    case Url => t.(url := v)
  }

  /** The value a partial tool holds under a key, `None` when the key is absent. */
  function Lookup(p: Fields, f: Field): Option<string>
  {
    match f
    case Id => p.id
    case Title => Some(p.title)
    case Description => Some(p.description)
    case Url => Some(p.url)
  }

  /** `{ ...p, [f]: v }` on a partial tool. */
  function Put(p: Fields, f: Field, v: string): (r: Fields)
    ensures Lookup(r, f) == Some(v)
    ensures forall g :: g != f ==> Lookup(r, g) == Lookup(p, g)
  {
    match f
    case Id => p.(id := Some(v))
    case Title => p.(title := v)
    case Description => p.(description := v)
    case Url => p.(url := v)
  }

  /** Two tools that agree on every key are the same tool. */
  lemma ToolsAgreeingOnAllKeysAreEqual(a: Tool, b: Tool)
    requires forall f :: Get(a, f) == Get(b, f)
    ensures a == b
  {
    assert Get(a, Id) == Get(b, Id);
    assert Get(a, Title) == Get(b, Title);
    assert Get(a, Description) == Get(b, Description);
    assert Get(a, Url) == Get(b, Url);
  }

  /** `Set`'s contract fixes its result: any tool that holds the value under
      the key and agrees with the original on every other key is `Set`'s. */
  lemma SetIsDeterminedByItsKeys(t: Tool, f: Field, v: string, r: Tool)
    requires Get(r, f) == v
    requires forall g :: g != f ==> Get(r, g) == Get(t, g)
    ensures r == Set(t, f, v)
  {
    ToolsAgreeingOnAllKeysAreEqual(r, Set(t, f, v));
  }

  /** Writing a key twice keeps only the second value. */
  lemma SetTwiceKeepsLast(t: Tool, f: Field, a: string, b: string)
    ensures Set(Set(t, f, a), f, b) == Set(t, f, b)
  {
  }

  /** Writes to two different keys commute. */
  lemma SetsOnDistinctKeysCommute(t: Tool, f: Field, g: Field, a: string, b: string)
    requires f != g
    ensures Set(Set(t, f, a), g, b) == Set(Set(t, g, b), f, a)
  {
  }

  /** Writing back the value a key already holds changes nothing. */
  lemma SetOwnValueIsIdentity(t: Tool, f: Field)
    ensures Set(t, f, Get(t, f)) == t
  {
  }

  /** No two records of the list share an id. */
  ghost predicate UniqueIds(tools: seq<Tool>)
  {
    forall i, j :: 0 <= i < j < |tools| ==> tools[i].id != tools[j].id
  }

  /** Some record of the list carries the id. */
  ghost predicate HasId(tools: seq<Tool>, id: string)
  {
    exists t :: t in tools && t.id == id
  }

  /** A list with unique ids stays so when a record with a new id is appended. */
  lemma AppendFreshKeepsUnique(tools: seq<Tool>, t: Tool)
    requires UniqueIds(tools)
    requires !HasId(tools, t.id)
    ensures UniqueIds(tools + [t])
  {
  }

  /** A list with unique ids stays so when a record with a new id is put in front. */
  lemma PrependFreshKeepsUnique(t: Tool, tools: seq<Tool>)
    requires UniqueIds(tools)
    requires !HasId(tools, t.id)
    ensures UniqueIds([t] + tools)
  {
  }

  /** The tail of a list with unique ids has unique ids and lacks the head's id. */
  lemma UniqueTail(tools: seq<Tool>)
    requires |tools| > 0
    requires UniqueIds(tools)
    ensures UniqueIds(tools[1..])
    ensures !HasId(tools[1..], tools[0].id)
  {
  }
}
